=== FILE: README.md ===
# Inventory table — a Dafny model of its data pipeline

This project models the data side of a Next.js site that shows a card
inventory kept in Google Sheets. The site has two versions of the pipeline.

**The `InventoryTable` component** runs these stages:

1. It parses its `tabNames` prop: a list, or one comma-separated string.
2. It checks its configuration.
3. It requests each tab through the Google Visualization ("gviz") endpoint.
4. It turns each tab's table into items keyed by column headers. A header is
   the label, else the column id, else `Column_<n>`.
5. It keeps the tabs that load, in request order.
6. It filters the active tab's items on a case-insensitive search term.
7. It sorts a copy of them on one column, ascending or descending.
8. It decides which cell values are shown as images.

**The older single-tab page** (`inventory/page.tsx`) does the same with
label-only headers and a narrower image test.

Everything is pure functions over immutable values, with one method for the
tab loop. Each stage has a partner property:

- a round trip, for tab-name parsing;
- an if-and-only-if, for the configuration check and for which tabs load;
- a permutation plus sortedness plus stability, for the sort;
- a subsequence, idempotence and monotonicity, for the filter;
- a refinement, between the two image tests.

The network request is a function parameter: `fetch(sheetId, tabName)`
returns either a transport failure or the response text together with the
parsed table. If unwrapping or `JSON.parse` throws, the parsed table is
`None`.

Modules, in dependency order:

- `Wrappers`: `Option` and `Result`.
- `Text`: ASCII lower-casing, prefix/suffix tests, `indexOf`/`includes` and a first-occurrence `replace`.
- `Tokens`: ECMAScript `trim`, and `split`/`join` on one character.
- `Decimal`: the decimal numeral of a natural number.
- `StringOrder`: the `<` order on strings.
- `Seqs`: subsequences and an order-preserving filter.
- `Sheets`: the gviz table, header derivation and row normalisation.
- `Loader`: tab-name parsing, the configuration check and the multi-tab load.
- `Sorting`: the comparator and a stable sort.
- `View`: the sort directive, tab switching and `filteredAndSortedInventory`.
- `Images`: `isImageUrl` and `getDirectImageUrl`.
- `InventoryPage`: the single-tab page.

## Model

| member | source | states |
|---|---|---|
| Text.Lower | src/app/components/InventoryTable.tsx:148 | The model's ASCII fold of `toLowerCase` keeps the length and maps each character on its own. No upper-case ASCII letter is left, and every other character is kept. |
| Text.LowerIdempotent | src/app/components/InventoryTable.tsx:148 | Lower-casing a lower-cased string changes nothing, so folding the term and the value again would not change a match. |
| Text.IndexOf | src/app/components/InventoryTable.tsx:148 | The result is the first position where the pattern occurs; `None` exactly when it occurs nowhere. |
| Text.ContainsIff | src/app/components/InventoryTable.tsx:84 | `includes` holds exactly when some position holds an occurrence. |
| Text.ContainsTransitive | src/app/components/InventoryTable.tsx:146-149 | A string containing `b` also contains everything that `b` contains. |
| Text.ReplaceFirst | src/app/components/InventoryTable.tsx:222 | Replacing a pattern that does not occur changes nothing; a pattern at the front is replaced there. |
| Tokens.Trim | src/app/components/InventoryTable.tsx:38 | The result is a contiguous slice of the input with no white space at either end; it is empty exactly when the input is all white space. |
| Tokens.TrimUnchanged | src/app/components/InventoryTable.tsx:38 | Trimming a string without surrounding white space returns it unchanged. |
| Tokens.Split | src/app/components/InventoryTable.tsx:38 | `split(',')` yields one more piece than there are separators, and no piece contains the separator. |
| Tokens.JoinSplit | src/app/components/InventoryTable.tsx:38 | Joining the pieces of a split with the separator gives the original string back. |
| Tokens.SplitJoin | src/app/components/InventoryTable.tsx:38 | Splitting a join of separator-free parts gives the parts back. |
| Decimal.NatToString | src/app/components/InventoryTable.tsx:95 | The numeral in `Column_${index + 1}` is non-empty, all digits and has no leading zero. |
| Decimal.DecimalRoundTrip | src/app/components/InventoryTable.tsx:95 | Reading the numeral back gives the number. |
| Decimal.NatToStringInjective | src/app/components/InventoryTable.tsx:95 | Different numbers get different numerals. |
| StringOrder.LessIrreflexive | src/app/components/InventoryTable.tsx:171-176 | No string sorts before itself. |
| StringOrder.LessTransitive | src/app/components/InventoryTable.tsx:171-176 | The string order is transitive. |
| StringOrder.LessTotal | src/app/components/InventoryTable.tsx:171-176 | Of two different strings, one is less than the other. |
| Seqs.Filter | src/app/components/InventoryTable.tsx:146-150 | `Array.filter` keeps input order, and each element keeps all its copies when it passes and none otherwise. |
| Seqs.FilterKeepsAll | src/app/components/InventoryTable.tsx:146-150 | A filter that every element passes returns the input. |
| Seqs.FilterMonotone | src/app/components/InventoryTable.tsx:146-150 | A stronger condition keeps a subsequence of what a weaker one keeps. |
| Sheets.LookupSpec | src/app/components/InventoryTable.tsx:104 | Reading an item at a key gives the value of the last entry with that key, because a later assignment overwrites an earlier one. The model reads an absent key as "", a case the component never reaches. |
| Sheets.Headers | src/app/components/InventoryTable.tsx:94-96 | One header per column, never empty. The header is the label when it is not blank after trimming, else the id when present, else `Column_<i+1>`. |
| Sheets.SynthesizedHeadersDistinct | src/app/components/InventoryTable.tsx:95 | Two columns that both fall back to `Column_<n>` get different headers. |
| Sheets.NormaliseRow | src/app/components/InventoryTable.tsx:99-107 | The item has exactly the headers as keys, in order. Each value is the string form of the cell. A `null` slot, a missing `v` and a slot past the end of the row all give "". |
| Sheets.NormaliseRows | src/app/components/InventoryTable.tsx:99-107 | One item per row in row order, all with the same keys. |
| Sheets.LookupNormalised | src/app/components/InventoryTable.tsx:101-104 | With distinct headers, reading an item at a column's header gives that column's cell. |
| Sheets.DisplayHeaders | src/app/components/InventoryTable.tsx:189 | A tab with no items shows no headers. |
| Sheets.DisplayHeadersOfUniform | src/app/components/InventoryTable.tsx:189 | In the model, which lists keys in column order with repeats, the displayed headers of a loaded tab are its column headers. |
| Loader.TrimAll | src/app/components/InventoryTable.tsx:38 | `map(name => name.trim())` trims every piece and keeps the count. |
| Loader.TrimKeepsOut | src/app/components/InventoryTable.tsx:38 | Trimming cannot introduce a comma. |
| Loader.ParseTabNames | src/app/components/InventoryTable.tsx:35-41 | A missing or empty prop gives no names. A list is used as it is. A string gives one trimmed, comma-free name per comma-separated piece. |
| Loader.ParseJoinedTabNames | src/app/components/InventoryTable.tsx:35-41 | Writing trimmed, comma-free names as one comma-separated string and parsing it gives the names back. |
| Loader.MessagesDistinct | src/app/components/InventoryTable.tsx:58-117 | The three error messages are pairwise different, so the message shown identifies the failed check. |
| Loader.Preflight | src/app/components/InventoryTable.tsx:56-67 | The sheet-id error comes exactly when the id is empty. The tab-names error comes exactly when the id is present but no tab names result. Loading goes ahead otherwise. |
| Loader.ProcessTab | src/app/components/InventoryTable.tsx:78-113 | A tab yields a sheet exactly when its response arrived, mentions `table` and parses. The sheet keeps the tab's name. Its items are the table's rows normalised under the derived headers: one item per row, with the cell values. |
| Loader.Collect | src/app/components/InventoryTable.tsx:75-114 | Loaded sheets come in request order. A name appears as often as it was requested when its tab loads, and not at all otherwise. Each sheet is what its own request produced. |
| Loader.CollectMembership | src/app/components/InventoryTable.tsx:75-114 | A requested tab is among the loaded sheets exactly when it loads. |
| Loader.LoadSheets | src/app/components/InventoryTable.tsx:75-114 | The `for` loop over the tab names builds exactly the collected sheets. |
| Loader.Load | src/app/components/InventoryTable.tsx:56-127 | A failed configuration check reports its error and requests nothing. Otherwise every parsed tab is requested. When any sheet is collected, the result is exactly the collected sheets: in request order, one per successful request and with their items. When none is collected, the result is "No sheets could be loaded". Which tabs load is tied to this by `Loader.LoadedIffSomeLoads`. |
| Loader.LoadedIffSomeLoads | src/app/components/InventoryTable.tsx:75-118 | The collected sheets are non-empty exactly when some requested tab loads. |
| Loader.LoadOkSpec | src/app/components/InventoryTable.tsx:56-127 | A success is non-empty and follows request order. It names a requested tab exactly when that tab loads. |
| Loader.LoadNothingSpec | src/app/components/InventoryTable.tsx:56-127 | "No sheets could be loaded" comes exactly when the configuration is sound and no requested tab loads. |
| Sorting.Compare | src/app/components/InventoryTable.tsx:171-177 | The comparator is 0 exactly on equal values. Otherwise its sign follows the string order, flipped when descending. |
| Sorting.CompareSymmetry | src/app/components/InventoryTable.tsx:171-177 | Descending is ascending negated, and swapping the arguments negates. |
| Sorting.BeforeAsymmetric | src/app/components/InventoryTable.tsx:171-177 | Two items cannot each sort before the other. |
| Sorting.NotBeforeTransitive | src/app/components/InventoryTable.tsx:171-177 | "Not before" is transitive, so the comparator is a consistent ordering. |
| Sorting.InsertSorted | src/app/components/InventoryTable.tsx:155-178 | Inserting into a sorted sequence keeps it sorted. |
| Sorting.InsertStable | src/app/components/InventoryTable.tsx:155-178 | Inserting an item at the front of its equal-key group keeps that group in input order. |
| Sorting.SortBy | src/app/components/InventoryTable.tsx:155-178 | The sorted copy is a permutation of the input, ordered by the comparator, and equal-key items keep their input order. |
| View.RequestSort | src/app/components/InventoryTable.tsx:133-139 | Clicking a column sorts on it. Ascending flips to descending when that column was already sorted ascending; otherwise the new direction is ascending. |
| View.RequestSortToggles | src/app/components/InventoryTable.tsx:133-139 | Repeated clicks on one column alternate the direction, with period two. |
| View.SwitchTab | src/app/components/InventoryTable.tsx:238-242 | Switching tabs selects the tab, clears the search and removes the sort, whatever the state before. |
| View.ActiveSheet | src/app/components/InventoryTable.tsx:130 | An index within range selects that sheet; any other gives an empty, nameless sheet. |
| View.FilterItems | src/app/components/InventoryTable.tsx:144-151 | An empty term keeps everything. Otherwise the result is a subsequence of the items holding exactly the items with a value that contains the term, ignoring case. |
| View.FilterIdempotent | src/app/components/InventoryTable.tsx:144-151 | Filtering twice with one term is filtering once. |
| View.FilterNarrows | src/app/components/InventoryTable.tsx:144-151 | Typing more of a term only removes rows: the new result is a subsequence of the old one. |
| View.Displayed | src/app/components/InventoryTable.tsx:142-182 | The shown rows are a permutation of the filtered rows. With no sort key, or an empty one, they stay in filtered order. Otherwise they are sorted by the string comparison, with ties in filtered order. |
| View.SwitchTabShowsSheet | src/app/components/InventoryTable.tsx:238-242 | Right after a tab switch, the selected tab's items are shown whole and in sheet order. |
| Images.ImageUrlRules | src/app/components/InventoryTable.tsx:193-213 | The empty string is never an image. An extension, a `/images/` path or an `http` URL mentioning `image` each make one. |
| Images.GetDirectImageUrl | src/app/components/InventoryTable.tsx:216-227 | A path starting with `./public/` loses exactly `./public`; anything else is kept; the result never starts with `./public/`. |
| Images.GetDirectImageUrlIdempotent | src/app/components/InventoryTable.tsx:216-227 | Rewriting a rewritten URL changes nothing. |
| Images.DirectUrlStaysImage | src/app/components/InventoryTable.tsx:193-227 | A value recognised as an image is still recognised after it is rewritten to its direct URL. |
| InventoryPage.PageHeaders | src/app/inventory/page.tsx:31 | The page's headers are the raw column labels, one per column. |
| InventoryPage.PageCellTextAgrees | src/app/inventory/page.tsx:37 | The optional-chaining `toString` with an empty-string fallback stores the same string as the component's null check. |
| InventoryPage.PageRow | src/app/inventory/page.tsx:34-40 | The page's item has exactly the headers as keys, with the cell strings as values. |
| InventoryPage.PageRowAgrees | src/app/inventory/page.tsx:34-40 | Over the same headers, the page and the component build the same item. |
| InventoryPage.PageItems | src/app/inventory/page.tsx:31-40 | One item per row, all keyed by the raw labels, each value the cell string. |
| InventoryPage.PageMatchesComponent | src/app/inventory/page.tsx:31-40 | When every label is non-blank, the page's items equal the component's items for the same table. |
| InventoryPage.PageKeepsBlankLabel | src/app/inventory/page.tsx:31 | A blank label stays a key on the page, where the component would use the column id. |
| InventoryPage.PageLoad | src/app/inventory/page.tsx:23-49 | The page loads items exactly when the response parses. The items are the table's rows keyed by the labels: one per row, with the cell values. |
| InventoryPage.PageLoadAgrees | src/app/inventory/page.tsx:23-49 | With a response that mentions `table` and labels that are all usable, the page and the component load the same items. |
| InventoryPage.PageImageRefines | src/app/inventory/page.tsx:58-69 | Every value the page shows as an image, the component does too. The component additionally accepts exactly the local image paths and the imgur and Cloudinary hosts. |
| InventoryPage.LocalPathSeparatesTests | src/app/inventory/page.tsx:58-69 | `/images/card` is an image for the component but not for the page, so the refinement is strict. |

## Behaviour of the code worth knowing

- `getDirectImageUrl` (lines 216-227) only strips `./public` from paths that start with `./public/`; every other string, including any hosted link, is returned unchanged. `Images.GetDirectImageUrl` models exactly that.
- A tab string such as `","` or `" "` parses to blank names. These pass the check at line 63 and are requested; `Loader.Preflight` keeps this.
- Derived headers can repeat. Two columns may share a label, and a label may equal a synthesized `Column_<n>`. Only synthesized headers are distinct from one another (`Sheets.SynthesizedHeadersDistinct`). When headers repeat, a lookup gives the value of the last column with that header, as JavaScript assignment does.

## Left out

- The request itself is a parameter `fetch(sheetId, tabName)`. The model leaves out:
  - building the URL with `encodeURIComponent`;
  - `response.text()`;
  - the `substring` unwrap and `JSON.parse`.

  Which tables a response yields is outside the model. Each tab name is assumed to produce one fixed response per sheet id.
- The error thrown when a row's `c` is `null` is not modelled separately. Any throw inside one tab's processing means that tab yields no sheet, which the model expresses as a `None` table.
- The outer `catch` of `loadSheets` (lines 123-126) is left out. Nothing inside the modelled loop can reach it, because the inner `catch` handles every per-tab failure.
- Column labels and ids that are `undefined` are modelled as "". The component treats the two alike. On the page an undefined label would become the key `"undefined"`; the model does not distinguish that case.
- Scalar cell values are carried as their string form, computed elsewhere. Number and date formatting by `String(v)` is not modelled.
- View.Displayed: a sorted view is ordered by the string comparison only. Where both values of a pair parse with `parseFloat`, lines 161-168 compare them as numbers, so `"9"` comes before `"10"` in the source but after it in the model.
- Sorting.SortBy: only the string-comparison path is modelled. When both values parse with `parseFloat`, lines 161-168 order them as numbers instead. Floating-point parsing is not modelled.
- StringOrder.LessTotal: strings are compared by character, and JavaScript compares UTF-16 code units. The two orders differ only for characters outside the Basic Multilingual Plane.
- Sheets.LookupSpec: in JavaScript an absent key reads as `undefined`, and the model reads it as "". The component never reads an absent key: the sort key comes from the first item's keys, every item of a tab has the same keys, and a tab switch clears the sort.
- Text.Lower: only ASCII letters are lowered. `toLowerCase` also maps other letters. It can change the length: U+0130 becomes two characters. It can also depend on context: a capital sigma becomes `ς` at the end of a word and `σ` elsewhere.
- Sheets.DisplayHeaders: `Object.keys` lists integer-like keys first and lists a repeated header once. The model takes the keys in column order with repeats. Lookups still follow JavaScript, where the last assignment wins.
- Sheets.DisplayHeadersOfUniform: has the same `Object.keys` gap. With repeated headers or integer-like labels such as "2024", the table shows fewer headers, or the same headers in another order, than the column headers the lemma returns.
- Rendering is left out:
  - the tab bar, the search box and the sort arrows;
  - the image modal and the `onError` fallback;
  - mobile detection and the resize listener;
  - loading indicators and React state scheduling.
- The page's loading flags and its error text (`err.message`) are left out. `PageLoad` models only whether items were produced.
- The site's other files are not part of this model: navigation bar, layout, configuration and other pages.

=== FILE: decimal.dfy ===
/** Decimal rendering of natural numbers, as the template literal `${n}` does it. */
module Decimal {

  predicate IsDigits(s: string) {
    forall i :: 0 <= i < |s| ==> '0' <= s[i] <= '9'
  }

  function DigitChar(d: nat): char
    requires d < 10
  {
    ('0' as int + d) as char
  }

  /** The shortest decimal numeral of `n`. */
  function NatToString(n: nat): (r: string)
    ensures |r| > 0 && IsDigits(r)
    ensures |r| > 1 ==> r[0] != '0'
    decreases n
  {
    if n < 10 then [DigitChar(n)] else NatToString(n / 10) + [DigitChar(n % 10)]
  }

  /** The number a decimal numeral denotes. */
  function DigitsValue(s: string): nat
    requires IsDigits(s)
    decreases |s|
  {
    if |s| == 0 then 0
    else 10 * DigitsValue(s[..|s| - 1]) + (s[|s| - 1] as int - '0' as int)
  }

  lemma {:induction false} DecimalRoundTrip(n: nat)
    ensures DigitsValue(NatToString(n)) == n
    decreases n
  {
    if n >= 10 {
      var s := NatToString(n);
      assert s[..|s| - 1] == NatToString(n / 10);
      DecimalRoundTrip(n / 10);
    }
  }

  /** Distinct numbers get distinct numerals. */
  lemma NatToStringInjective(m: nat, n: nat)
    requires NatToString(m) == NatToString(n)
    ensures m == n
  {
    DecimalRoundTrip(m);
    DecimalRoundTrip(n);
  }
}

=== FILE: images.dfy ===
/** The image classification done when a cell is rendered: `isImageUrl` and
    `getDirectImageUrl` (InventoryTable.tsx, lines 193-227). */
module Images {
  import opened Text

  /** The alternatives of `/\.(jpeg|jpg|gif|png|webp)$/i`. */
  const ImageExtensions: seq<string> := [".jpeg", ".jpg", ".gif", ".png", ".webp"]

  /** The string ends in one of the extensions, ignoring ASCII case (the `i`
      flag without `u` folds only ASCII letters onto ASCII letters). */
  predicate HasImageExtension(s: string) {
    exists e :: e in ImageExtensions && EndsWith(Lower(s), e)
  }

  /** A path under the site's public image folder (lines 202-204). */
  predicate IsLocalImage(s: string) {
    StartsWith(s, "./public/images/") || StartsWith(s, "/public/images/") || StartsWith(s, "/images/")
  }

  /** A known image host, or an `http` URL that mentions `image` (lines 207-210). */
  predicate IsImageService(s: string) {
    Contains(s, "imgur.com") || Contains(s, "cloudinary.com") || (StartsWith(s, "http") && Contains(s, "image"))
  }

  /** `isImageUrl` of the component. */
  predicate IsImageUrl(s: string) {
    s != "" && (HasImageExtension(s) || IsLocalImage(s) || IsImageService(s))
  }

  /** The three ways a cell is shown as an image, and the empty string never is. */
  lemma ImageUrlRules(s: string)
    ensures !IsImageUrl("")
    ensures HasImageExtension(s) ==> IsImageUrl(s)
    ensures StartsWith(s, "/images/") ==> IsImageUrl(s)
    ensures StartsWith(s, "http") && Contains(s, "image") ==> IsImageUrl(s)
  {
    if HasImageExtension(s) {
      var e :| e in ImageExtensions && EndsWith(Lower(s), e);
      assert |e| > 0;
    }
  }

  /** `getDirectImageUrl`: strips the `./public` folder from a path into the
      public folder, which is served from the site root; anything else is kept. */
  function GetDirectImageUrl(url: string): (r: string)
    ensures url == "" ==> r == ""
    ensures StartsWith(url, "./public/") ==> "./public" + r == url
    ensures !StartsWith(url, "./public/") ==> r == url
    ensures !StartsWith(r, "./public/")
  {
    if url == "" then ""
    else if StartsWith(url, "./public/") then
      assert url[..8] == "./public";
      assert StartsWith(url, "./public");
      var r := ReplaceFirst(url, "./public", "");
      assert r == url[8..] && r[0] == '/';
      r
    else url
  }

  /** Rewriting twice is rewriting once. */
  lemma GetDirectImageUrlIdempotent(url: string)
    ensures GetDirectImageUrl(GetDirectImageUrl(url)) == GetDirectImageUrl(url)
  {
  }

  /** A string carrying `./public` as a prefix keeps every occurrence of `t`
      that begins past the prefix when the prefix is stripped. */
  lemma OccurrencePastPrefix(s: string, t: string, i: nat)
    requires OccursAt(s, t, i) && 8 <= i
    ensures OccursAt(s[8..], t, i - 8)
  {
    assert s[8..][i - 8..i - 8 + |t|] == s[i..i + |t|];
  }

  /** A suffix that does not contain the character at `k` lies past `k`. */
  lemma EndsWithPast(s: string, e: string, k: nat)
    requires k < |s| && EndsWith(s, e) && s[k] !in e
    ensures |e| < |s| - k
  {
  }

  /** A suffix that fits after `k` is still a suffix once the first `k` characters go. */
  lemma EndsWithDrop(s: string, e: string, k: nat)
    requires k + |e| <= |s| && EndsWith(s, e)
    ensures EndsWith(s[k..], e)
  {
    assert s[k..][|s| - k - |e|..] == s[|s| - |e|..];
  }

  lemma NoSlashInExtensions()
    ensures forall e :: e in ImageExtensions ==> '/' !in e
  {
  }

  lemma ExtensionPastPrefix(s: string)
    requires StartsWith(s, "./public/") && HasImageExtension(s)
    ensures HasImageExtension(s[8..])
  {
    var e :| e in ImageExtensions && EndsWith(Lower(s), e);
    var ls := Lower(s);
    assert s[8] == "./public/"[8];
    assert ls[8] == '/';
    NoSlashInExtensions();
    EndsWithPast(ls, e, 8);
    EndsWithDrop(ls, e, 8);
    assert Lower(s[8..]) == ls[8..];
  }

  /** A host that starts with 'i' or 'c', and whose second character is neither
      '/' nor 'c', cannot begin inside `./public/`, so it survives stripping the prefix. */
  lemma HostPastPrefix(s: string, host: string)
    requires StartsWith(s, "./public/") && Contains(s, host)
    requires |host| >= 2 && host[0] in "ic" && host[1] !in "/c"
    ensures Contains(s[8..], host)
  {
    var i := IndexOf(s, host).value;
    assert s[..9] == "./public/";
    assert s[i] == host[0] && s[i + 1] == host[1];
    assert i >= 8;
    OccurrencePastPrefix(s, host, i);
    ContainsIff(s[8..], host);
  }

  /** A local image path under `./public/images/` stays under `/images/`. */
  lemma LocalPastPrefix(s: string)
    requires StartsWith(s, "./public/") && IsLocalImage(s)
    ensures IsLocalImage(s[8..])
  {
    assert s[0] == '.';
    assert StartsWith(s, "./public/images/");
    assert s[8..][..8] == s[8..16];
  }

  /** An image host named in a `./public/` path is still named once the prefix goes. */
  lemma ServicePastPrefix(s: string)
    requires StartsWith(s, "./public/") && IsImageService(s)
    ensures IsImageService(s[8..])
  {
    assert s[0] == '.';
    if Contains(s, "imgur.com") {
      HostPastPrefix(s, "imgur.com");
    } else {
      HostPastPrefix(s, "cloudinary.com");
    }
  }

  /** An image URL stays an image URL once rewritten to its direct form. */
  lemma DirectUrlStaysImage(s: string)
    requires IsImageUrl(s)
    ensures IsImageUrl(GetDirectImageUrl(s))
  {
    if StartsWith(s, "./public/") {
      assert GetDirectImageUrl(s) == s[8..] && s[8..] != "";
      if HasImageExtension(s) {
        ExtensionPastPrefix(s);
      } else if IsLocalImage(s) {
        LocalPastPrefix(s);
      } else {
        ServicePastPrefix(s);
      }
    }
  }
}

=== FILE: inventory_page.dfy ===
/** The older single-tab inventory page (inventory/page.tsx): the same gviz
    table turned into items, but keyed by the raw column labels, with a
    truthiness-based cell normalisation and a narrower image test. */
module InventoryPage {
  import opened Wrappers
  import opened Text
  import opened Sheets
  import opened Images
  import Loader

  /** The page's headers: every column's label as it is, blank or not (line 31). */
  function PageHeaders(cols: seq<Column>): (hs: seq<string>)
    ensures |hs| == |cols|
    ensures forall i :: 0 <= i < |cols| ==> hs[i] == cols[i].labelText
  {
    seq(|cols|, i requires 0 <= i < |cols| => cols[i].labelText)
  }

  /** `row.c[i]?.v?.toString() || ''`: a missing slot, a `null` cell, a missing
      value and a value whose string form is empty all read as "" (line 37). */
  function PageCellText(cells: seq<Cell>, i: nat): string {
    if i < |cells| && cells[i].Cell? && cells[i].v.Scalar? then
      var shown := cells[i].v.text;
      if shown == "" then "" else shown
    else ""
  }

  /** The two normalisations store the same string for every cell. */
  lemma PageCellTextAgrees(cells: seq<Cell>, i: nat)
    ensures PageCellText(cells, i) == CellText(cells, i)
  {
  }

  /** One row as the page builds it (lines 34-40). */
  function PageRow(headers: seq<string>, cells: seq<Cell>): (item: Item)
    ensures Keys(item) == headers
    ensures forall i :: 0 <= i < |headers| ==> item[i].value == CellText(cells, i)
  {
    seq(|headers|, i requires 0 <= i < |headers| => Entry(headers[i], PageCellText(cells, i)))
  }

  /** Over the same headers, the page and the component build the same item. */
  lemma PageRowAgrees(headers: seq<string>, cells: seq<Cell>)
    ensures PageRow(headers, cells) == NormaliseRow(headers, cells)
  {
    var p := PageRow(headers, cells);
    var c := NormaliseRow(headers, cells);
    assert |p| == |c|;
    forall i | 0 <= i < |p|
      ensures p[i] == c[i]
    {
      assert Keys(p)[i] == Keys(c)[i];
    }
  }

  /** All items of a parsed table, one per row, in order (lines 31-40). */
  function PageItems(t: Table): (items: seq<Item>)
    ensures |items| == |t.rows|
    ensures Uniform(items, PageHeaders(t.cols))
    ensures forall k, i :: 0 <= k < |t.rows| && 0 <= i < |t.cols| ==> items[k][i].value == CellText(t.rows[k], i)
  {
    var headers := PageHeaders(t.cols);
    seq(|t.rows|, k requires 0 <= k < |t.rows| => PageRow(headers, t.rows[k]))
  }

  /** Every label usable: the page's items are the component's items for the same table. */
  lemma PageMatchesComponent(t: Table)
    requires forall i :: 0 <= i < |t.cols| ==> !IsBlank(t.cols[i].labelText)
    ensures PageItems(t) == NormaliseRows(Headers(t.cols), t.rows)
  {
    var headers := PageHeaders(t.cols);
    assert headers == Headers(t.cols);
    var p := PageItems(t);
    var c := NormaliseRows(headers, t.rows);
    forall k | 0 <= k < |t.rows|
      ensures p[k] == c[k]
    {
      PageRowAgrees(headers, t.rows[k]);
    }
  }

  /** A blank label is a key on the page, while the component falls back to the id. */
  lemma PageKeepsBlankLabel(t: Table, i: nat)
    requires i < |t.cols| && IsBlank(t.cols[i].labelText) && t.cols[i].id != ""
    requires t.cols[i].labelText != t.cols[i].id
    ensures PageHeaders(t.cols)[i] != Headers(t.cols)[i]
  {
  }

  /** The outcome of the page's effect: the items, or the failure that the
      `catch` turns into an error message (lines 23-49). */
  function PageLoad(payload: Option<Table>): (r: Option<seq<Item>>)
    ensures r.Some? <==> payload.Some?
    ensures r.Some? ==> |r.value| == |payload.value.rows|
    ensures r.Some? ==> Uniform(r.value, PageHeaders(payload.value.cols))
    ensures r.Some? ==> r.value == PageItems(payload.value)
  {
    match payload
    case None => None
    case Some(t) => Some(PageItems(t))
  }

  /** The page skips the component's check for the word `table`; on a response
      that passes it, and with every label usable, both load the same items. */
  lemma PageLoadAgrees(name: string, text: string, payload: Option<Table>)
    requires Contains(text, "table")
    requires payload.Some? ==> forall i :: 0 <= i < |payload.value.cols| ==> !IsBlank(payload.value.cols[i].labelText)
    ensures PageLoad(payload).Some? <==> Loader.ProcessTab(name, Loader.Response(text, payload)).Some?
    ensures PageLoad(payload).Some? ==>
      Loader.ProcessTab(name, Loader.Response(text, payload)).value == Sheet(name, PageLoad(payload).value)
  {
    if payload.Some? {
      PageMatchesComponent(payload.value);
    }
  }

  /** The page's `isImageUrl` (lines 58-69): an image extension, or an `http`
      URL mentioning `image`; no local paths and no known hosts. */
  predicate PageIsImageUrl(s: string) {
    s != "" && (HasImageExtension(s) || (StartsWith(s, "http") && Contains(s, "image")))
  }

  /** The component's test accepts everything the page's does, and the extra
      strings it accepts are exactly local image paths and the two image hosts. */
  lemma PageImageRefines(s: string)
    ensures PageIsImageUrl(s) ==> IsImageUrl(s)
    ensures IsImageUrl(s) <==>
      PageIsImageUrl(s) || (s != "" && (IsLocalImage(s) || Contains(s, "imgur.com") || Contains(s, "cloudinary.com")))
  {
  }

  /** A local image path is shown as an image by the component but not by the page. */
  lemma LocalPathSeparatesTests()
    ensures IsImageUrl("/images/card") && !PageIsImageUrl("/images/card")
  {
    var s := "/images/card";
    assert StartsWith(s, "/images/");
    var ls := Lower(s);
    assert ls[|ls| - 1] == 'd';
    forall e | e in ImageExtensions
      ensures !EndsWith(ls, e)
    {
      assert e[|e| - 1] != 'd';
    }
    assert s[0] == '/';
  }
}

=== FILE: loader.dfy ===
/** The multi-tab loader of the inventory component (InventoryTable.tsx,
    lines 34-127): tab-name parsing, the configuration check, per-tab
    processing and the aggregation of the tabs that load. */
module Loader {
  import opened Wrappers
  import opened Text
  import opened Tokens
  import opened Sheets
  import opened Seqs

  /** The `tabNames` prop: not given, one comma-separated string, or a list. */
  datatype TabNames = Unset | Joined(text: string) | Listed(names: seq<string>)

  /** The trimmed pieces of a comma-separated tab list. */
  function TrimAll(pieces: seq<string>): (r: seq<string>)
    ensures |r| == |pieces|
    ensures forall i :: 0 <= i < |pieces| ==> r[i] == Trim(pieces[i])
  {
    seq(|pieces|, i requires 0 <= i < |pieces| => Trim(pieces[i]))
  }

  lemma TrimKeepsOut(s: string, c: char)
    requires c !in s
    ensures c !in Trim(s)
  {
    var r := Trim(s);
    var i :| Framed(s, r, i);
    assert forall k :: 0 <= k < |r| ==> r[k] == s[i + k];
  }

  /** `parsedTabNames` (lines 35-41). */
  function ParseTabNames(t: TabNames): (names: seq<string>)
    ensures t.Unset? ==> names == []
    ensures t.Joined? && t.text == "" ==> names == []
    ensures t.Joined? && t.text != "" ==> |names| == multiset(t.text)[','] + 1
    ensures t.Joined? && t.text != "" ==> forall i :: 0 <= i < |names| ==> names[i] == Trim(Split(t.text, ',')[i])
    ensures t.Joined? ==> forall i :: 0 <= i < |names| ==>
      && ',' !in names[i]
      && (names[i] == "" || (!IsSpace(names[i][0]) && !IsSpace(names[i][|names[i]| - 1])))
    ensures t.Listed? ==> names == t.names
  {
    match t
    case Unset => []
    case Joined(text) =>
      if text == "" then []
      else
        var pieces := Split(text, ',');
        assert forall i :: 0 <= i < |pieces| ==> ',' !in Trim(pieces[i]) by {
          forall i | 0 <= i < |pieces| ensures ',' !in Trim(pieces[i]) {
            TrimKeepsOut(pieces[i], ',');
          }
        }
        TrimAll(pieces)
    case Listed(names) => names
  }

  /** Writing an already-trimmed list of tab names as one comma-separated
      string and parsing it gives the same list back. */
  lemma ParseJoinedTabNames(names: seq<string>)
    requires |names| > 0 && Join(names, ',') != ""
    requires forall i :: 0 <= i < |names| ==> ',' !in names[i]
    requires forall i :: 0 <= i < |names| ==> names[i] == "" || (!IsSpace(names[i][0]) && !IsSpace(names[i][|names[i]| - 1]))
    ensures ParseTabNames(Joined(Join(names, ','))) == names
  {
    SplitJoin(names, ',');
    forall i | 0 <= i < |names| ensures Trim(names[i]) == names[i] {
      TrimUnchanged(names[i]);
    }
  }

  /** The errors the loader reports to the page. */
  datatype LoadError = MissingSheetId | MissingTabNames | NoSheetsLoaded

  function Message(e: LoadError): string {
    match e
    case MissingSheetId => "Missing required prop: sheetId"
    case MissingTabNames => "Missing required prop: tabNames"
    case NoSheetsLoaded => "No sheets could be loaded. Check your sheet ID and tab names."
  }

  /** Each error has its own message, so the page tells the user which check failed. */
  lemma MessagesDistinct(a: LoadError, b: LoadError)
    ensures Message(a) == Message(b) <==> a == b
  {
    if a != b {
      assert |Message(a)| != |Message(b)|;
    }
  }

  /** The configuration check run before any request (lines 56-67). */
  function Preflight(sheetId: string, tabNames: TabNames): (r: Option<LoadError>)
    ensures r == Some(MissingSheetId) <==> sheetId == ""
    ensures r == Some(MissingTabNames) <==> sheetId != "" && ParseTabNames(tabNames) == []
    ensures r.None? <==> sheetId != "" && |ParseTabNames(tabNames)| > 0
  {
    if sheetId == "" then Some(MissingSheetId)
    else if tabNames == Unset || tabNames == Joined("") || ParseTabNames(tabNames) == [] then Some(MissingTabNames)
    else None
  }

  /** What the request for one tab produced: a transport failure, or the
      response text together with the table that unwrapping and `JSON.parse`
      extract from it (`None` when that throws). */
  datatype TabResponse = NetworkError | Response(text: string, payload: Option<Table>)

  /** One iteration of the loop body (lines 78-113): the sheet a tab yields, if any. */
  function ProcessTab(name: string, response: TabResponse): (r: Option<Sheet>)
    ensures r.Some? <==> response.Response? && Contains(response.text, "table") && response.payload.Some?
    ensures r.Some? ==> r.value.name == name
    ensures r.Some? ==> |r.value.items| == |response.payload.value.rows|
    ensures r.Some? ==> Uniform(r.value.items, Headers(response.payload.value.cols))
    ensures r.Some? ==> r.value.items == NormaliseRows(Headers(response.payload.value.cols), response.payload.value.rows)
  {
    match response
    case NetworkError => None
    case Response(text, payload) =>
      if !Contains(text, "table") then None
      else match payload
        case None => None
        case Some(table) =>
          var headers := Headers(table.cols);
          Some(Sheet(name, NormaliseRows(headers, table.rows)))
  }

  /** The request a tab name leads to, as seen by the loader. */
  type Fetch = (string, string) -> TabResponse

  predicate Loads(sheetId: string, name: string, fetch: Fetch) {
    ProcessTab(name, fetch(sheetId, name)).Some?
  }

  function SheetNames(sheets: seq<Sheet>): (ns: seq<string>)
    ensures |ns| == |sheets|
    ensures forall k :: 0 <= k < |sheets| ==> ns[k] == sheets[k].name
  {
    seq(|sheets|, k requires 0 <= k < |sheets| => sheets[k].name)
  }

  /** The sheets collected from `names`, one attempt per name, in order. */
  function Collect(sheetId: string, names: seq<string>, fetch: Fetch): (sheets: seq<Sheet>)
    ensures IsSubsequence(SheetNames(sheets), names)
    ensures forall n :: multiset(SheetNames(sheets))[n] == if Loads(sheetId, n, fetch) then multiset(names)[n] else 0
    ensures forall k :: 0 <= k < |sheets| ==> Some(sheets[k]) == ProcessTab(sheets[k].name, fetch(sheetId, sheets[k].name))
    decreases |names|
  {
    if |names| == 0 then []
    else
      var last := |names| - 1;
      var earlier := Collect(sheetId, names[..last], fetch);
      var step := ProcessTab(names[last], fetch(sheetId, names[last]));
      CollectCountStep(names, earlier, step, n => Loads(sheetId, n, fetch));
      CollectOrderStep(names, earlier, step);
      if step.Some? then earlier + [step.value] else earlier
  }

  /** One more requested tab: its sheet is counted exactly when it loads. */
  lemma CollectCountStep(names: seq<string>, earlier: seq<Sheet>, step: Option<Sheet>, loads: string -> bool)
    requires |names| > 0
    requires step.Some? <==> loads(names[|names| - 1])
    requires step.Some? ==> step.value.name == names[|names| - 1]
    requires forall n :: multiset(SheetNames(earlier))[n] == if loads(n) then multiset(names[..|names| - 1])[n] else 0
    ensures var sheets := if step.Some? then earlier + [step.value] else earlier;
      forall n :: multiset(SheetNames(sheets))[n] == if loads(n) then multiset(names)[n] else 0
  {
    var last := |names| - 1;
    var ns := SheetNames(earlier);
    if step.Some? {
      assert SheetNames(earlier + [step.value]) == ns + [names[last]];
    }
    assert names == names[..last] + [names[last]];
    FilterCountStep(ns, names[..last], names[last], loads);
  }

  /** One more requested tab keeps the sheets in request order. */
  lemma CollectOrderStep(names: seq<string>, earlier: seq<Sheet>, step: Option<Sheet>)
    requires |names| > 0
    requires step.Some? ==> step.value.name == names[|names| - 1]
    requires IsSubsequence(SheetNames(earlier), names[..|names| - 1])
    ensures var sheets := if step.Some? then earlier + [step.value] else earlier;
      IsSubsequence(SheetNames(sheets), names)
  {
    var last := |names| - 1;
    var ns := SheetNames(earlier);
    if step.Some? {
      assert SheetNames(earlier + [step.value]) == ns + [names[last]];
    }
    SubsequenceStep(ns, names, step.Some?);
  }

  /** A tab name is among the loaded sheets exactly when its tab loads. */
  lemma CollectMembership(sheetId: string, names: seq<string>, fetch: Fetch, n: string)
    requires n in names
    ensures n in SheetNames(Collect(sheetId, names, fetch)) <==> Loads(sheetId, n, fetch)
  {
    var ns := SheetNames(Collect(sheetId, names, fetch));
    assert n in ns <==> multiset(ns)[n] > 0;
    assert multiset(names)[n] > 0;
  }

  /** The loop of `loadSheets` (lines 75-114). */
  method LoadSheets(sheetId: string, names: seq<string>, fetch: Fetch) returns (loaded: seq<Sheet>)
    ensures loaded == Collect(sheetId, names, fetch)
  {
    loaded := [];
    for k := 0 to |names|
      invariant loaded == Collect(sheetId, names[..k], fetch)
    {
      assert names[..k + 1][..k] == names[..k];
      var sheet := ProcessTab(names[k], fetch(sheetId, names[k]));
      if sheet.Some? {
        loaded := loaded + [sheet.value];
      }
    }
    assert names[..|names|] == names;
  }

  /** The requests made and the outcome of loading. */
  datatype LoadOutcome = LoadOutcome(requested: seq<string>, result: Result<seq<Sheet>, LoadError>)

  /** The whole load: the configuration check, then one request per tab,
      then either the loaded sheets or `NoSheetsLoaded` (lines 56-127). */
  function Load(sheetId: string, tabNames: TabNames, fetch: Fetch): (o: LoadOutcome)
    ensures Preflight(sheetId, tabNames).Some? ==> o == LoadOutcome([], Err(Preflight(sheetId, tabNames).value))
    ensures Preflight(sheetId, tabNames).None? ==> o.requested == ParseTabNames(tabNames)
    ensures Preflight(sheetId, tabNames).None? && |Collect(sheetId, ParseTabNames(tabNames), fetch)| > 0 ==>
      o.result == Ok(Collect(sheetId, ParseTabNames(tabNames), fetch))
    ensures Preflight(sheetId, tabNames).None? && |Collect(sheetId, ParseTabNames(tabNames), fetch)| == 0 ==>
      o.result == Err(NoSheetsLoaded)
  {
    match Preflight(sheetId, tabNames)
    case Some(e) => LoadOutcome([], Err(e))
    case None =>
      var names := ParseTabNames(tabNames);
      var sheets := Collect(sheetId, names, fetch);
      if |sheets| == 0 then LoadOutcome(names, Err(NoSheetsLoaded))
      else LoadOutcome(names, Ok(sheets))
  }

  /** Some sheet is collected exactly when some requested tab loads. */
  lemma LoadedIffSomeLoads(sheetId: string, names: seq<string>, fetch: Fetch)
    ensures |Collect(sheetId, names, fetch)| > 0 <==> exists n :: n in names && Loads(sheetId, n, fetch)
  {
    var sheets := Collect(sheetId, names, fetch);
    var ns := SheetNames(sheets);
    if |sheets| > 0 {
      var n := sheets[0].name;
      assert n in ns;
      assert multiset(ns)[n] > 0;
      assert multiset(names)[n] > 0 && Loads(sheetId, n, fetch);
    } else {
      assert ns == [];
      forall n | n in names ensures !Loads(sheetId, n, fetch) {
        assert multiset(ns)[n] == 0 && multiset(names)[n] > 0;
      }
    }
  }

  /** A successful load is the non-empty, in-order subsequence of the
      requested tabs that load, naming a requested tab exactly when it loads. */
  lemma LoadOkSpec(sheetId: string, tabNames: TabNames, fetch: Fetch)
    ensures var o := Load(sheetId, tabNames, fetch);
      o.result.Ok? ==> |o.result.value| > 0 && IsSubsequence(SheetNames(o.result.value), ParseTabNames(tabNames))
    ensures var o := Load(sheetId, tabNames, fetch);
      o.result.Ok? ==> forall n :: n in ParseTabNames(tabNames) ==> (n in SheetNames(o.result.value) <==> Loads(sheetId, n, fetch))
  {
    var names := ParseTabNames(tabNames);
    if Preflight(sheetId, tabNames).None? {
      LoadedIffSomeLoads(sheetId, names, fetch);
      forall n | n in names
        ensures n in SheetNames(Collect(sheetId, names, fetch)) <==> Loads(sheetId, n, fetch)
      {
        CollectMembership(sheetId, names, fetch, n);
      }
    }
  }

  /** "No sheets could be loaded" comes exactly when the configuration is
      sound and no requested tab loads. */
  lemma LoadNothingSpec(sheetId: string, tabNames: TabNames, fetch: Fetch)
    ensures Load(sheetId, tabNames, fetch).result == Err(NoSheetsLoaded) <==>
      Preflight(sheetId, tabNames).None? && forall n :: n in ParseTabNames(tabNames) ==> !Loads(sheetId, n, fetch)
  {
    if Preflight(sheetId, tabNames).None? {
      LoadedIffSomeLoads(sheetId, ParseTabNames(tabNames), fetch);
    }
  }
}

=== FILE: seqs.dfy ===
/** Order-preserving subsequences, the shape of every filter in the component. */
module Seqs {

  /** `a` is obtained from `b` by deleting elements, keeping the order of the rest. */
  predicate IsSubsequence<T(==)>(a: seq<T>, b: seq<T>)
    decreases |b|
  {
    || |a| == 0
    || (&& |b| > 0
        && if a[|a| - 1] == b[|b| - 1] then IsSubsequence(a[..|a| - 1], b[..|b| - 1])
           else IsSubsequence(a, b[..|b| - 1]))
  }

  lemma {:induction false} SubsequenceDropLast<T>(a: seq<T>, b: seq<T>)
    requires IsSubsequence(a, b) && |a| > 0
    ensures IsSubsequence(a[..|a| - 1], b)
    decreases |b|
  {
    var a' := a[..|a| - 1];
    if |a'| > 0 {
      var b' := b[..|b| - 1];
      if a[|a| - 1] != b[|b| - 1] {
        SubsequenceDropLast(a, b');
      }
      if a'[|a'| - 1] == b[|b| - 1] {
        SubsequenceDropLast(a', b');
      }
    }
  }

  /** Appending to the longer sequence keeps a subsequence a subsequence. */
  lemma {:induction false} SubsequenceExtend<T>(a: seq<T>, b: seq<T>, x: T)
    requires IsSubsequence(a, b)
    ensures IsSubsequence(a, b + [x])
    decreases |b|
  {
    if |a| > 0 {
      var bx := b + [x];
      assert bx[..|bx| - 1] == b;
      if a[|a| - 1] == x {
        SubsequenceDropLast(a, b);
      }
    }
  }

  /** Appending the same element to both keeps a subsequence a subsequence. */
  lemma SubsequenceAppend<T>(a: seq<T>, b: seq<T>, x: T)
    requires IsSubsequence(a, b)
    ensures IsSubsequence(a + [x], b + [x])
  {
    assert (a + [x])[..|a|] == a;
    assert (b + [x])[..|b|] == b;
  }

  /** One more element of `b` keeps `a` holding exactly the `keep` elements of `b`, counted with multiplicity. */
  lemma FilterCountStep<T>(a: seq<T>, b: seq<T>, x: T, keep: T -> bool)
    requires forall n :: multiset(a)[n] == if keep(n) then multiset(b)[n] else 0
    ensures var a' := if keep(x) then a + [x] else a;
      forall n :: multiset(a')[n] == if keep(n) then multiset(b + [x])[n] else 0
  {
    assert multiset(b + [x]) == multiset(b) + multiset{x};
    assert multiset(a + [x]) == multiset(a) + multiset{x};
  }

  /** Taking or skipping the last element of `b` keeps the subsequence relation. */
  lemma SubsequenceStep<T>(a: seq<T>, b: seq<T>, take: bool)
    requires |b| > 0 && IsSubsequence(a, b[..|b| - 1])
    ensures IsSubsequence(if take then a + [b[|b| - 1]] else a, b)
  {
    var x := b[|b| - 1];
    assert b == b[..|b| - 1] + [x];
    if take {
      SubsequenceAppend(a, b[..|b| - 1], x);
    } else {
      SubsequenceExtend(a, b[..|b| - 1], x);
    }
  }

  lemma {:induction false} SubsequenceReflexive<T>(a: seq<T>)
    ensures IsSubsequence(a, a)
    decreases |a|
  {
    if |a| > 0 {
      SubsequenceReflexive(a[..|a| - 1]);
    }
  }

  /** The elements of `s` that satisfy `keep`, in order (`Array.prototype.filter`). */
  function Filter<T(!new)>(s: seq<T>, keep: T -> bool): (r: seq<T>)
    ensures IsSubsequence(r, s)
    ensures forall x :: multiset(r)[x] == if keep(x) then multiset(s)[x] else 0
    decreases |s|
  {
    if |s| == 0 then []
    else
      var last := |s| - 1;
      var earlier := Filter(s[..last], keep);
      SubsequenceStep(earlier, s, keep(s[last]));
      assert s == s[..last] + [s[last]];
      FilterCountStep(earlier, s[..last], s[last], keep);
      if keep(s[last]) then earlier + [s[last]] else earlier
  }

  /** A filter that every element passes returns its input. */
  lemma {:induction false} FilterKeepsAll<T(!new)>(s: seq<T>, keep: T -> bool)
    requires forall i :: 0 <= i < |s| ==> keep(s[i])
    ensures Filter(s, keep) == s
    decreases |s|
  {
    if |s| > 0 {
      var last := |s| - 1;
      FilterKeepsAll(s[..last], keep);
      assert keep(s[last]);
      assert s == s[..last] + [s[last]];
    }
  }

  /** Filtering with a stronger condition keeps a subsequence of what a weaker one keeps. */
  lemma {:induction false} FilterMonotone<T(!new)>(s: seq<T>, strong: T -> bool, weak: T -> bool)
    requires forall x :: strong(x) ==> weak(x)
    ensures IsSubsequence(Filter(s, strong), Filter(s, weak))
    decreases |s|
  {
    if |s| == 0 {
    } else {
      var last := |s| - 1;
      var x := s[last];
      FilterMonotone(s[..last], strong, weak);
      var a := Filter(s[..last], strong);
      var b := Filter(s[..last], weak);
      if strong(x) {
        SubsequenceAppend(a, b, x);
      } else if weak(x) {
        SubsequenceExtend(a, b, x);
      }
    }
  }
}

=== FILE: sheets.dfy ===
/** The data model of the inventory component: the column and row shape of a
    Google Visualization ("gviz") table after parsing, and the normalised
    items built from it (InventoryTable.tsx, lines 7-9 and 93-107). */
module Sheets {
  import opened Tokens
  import Decimal

  /** Column metadata; an absent label or id is the empty string, which the
      component treats exactly like an undefined one. */
  datatype Column = Column(labelText: string, id: string)

  /** The `v` field of a cell: `null`/`undefined`, or a scalar with its `String(v)` form. */
  datatype Value = Missing | Scalar(text: string)

  /** One slot of a row's `c` array: a `null` slot or a cell object. */
  datatype Cell = NullCell | Cell(v: Value)

  /** The parsed `table` of a gviz response. */
  datatype Table = Table(cols: seq<Column>, rows: seq<seq<Cell>>)

  /** One property of an inventory item. An item is the sequence of its
      properties in insertion order, so order and repeated keys stay visible. */
  datatype Entry = Entry(key: string, value: string)
  type Item = seq<Entry>

  /** A loaded tab: its requested name and its items. */
  datatype Sheet = Sheet(name: string, items: seq<Item>)

  function Keys(item: Item): (ks: seq<string>)
    ensures |ks| == |item|
    ensures forall i :: 0 <= i < |item| ==> ks[i] == item[i].key
  {
    seq(|item|, i requires 0 <= i < |item| => item[i].key)
  }

  /** Entry `i` is the last one with key `key`. */
  predicate LastWith(item: Item, key: string, i: int) {
    0 <= i < |item| && item[i].key == key && forall j :: i < j < |item| ==> item[j].key != key
  }

  /** `item[key]`: later assignments to a key overwrite earlier ones, so the
      value is that of the last entry with the key; an absent key reads as "". */
  function Lookup(item: Item, key: string): string
    decreases |item|
  {
    if |item| == 0 then ""
    else if item[|item| - 1].key == key then item[|item| - 1].value
    else Lookup(item[..|item| - 1], key)
  }

  /** What `Lookup` returns, stated over the whole item. */
  lemma {:induction false} LookupSpec(item: Item, key: string)
    ensures key !in Keys(item) ==> Lookup(item, key) == ""
    ensures forall i :: LastWith(item, key, i) ==> Lookup(item, key) == item[i].value
    decreases |item|
  {
    if |item| > 0 {
      var last := |item| - 1;
      assert Keys(item[..last]) == Keys(item)[..last];
      if item[last].key != key {
        LookupSpec(item[..last], key);
        assert forall i :: LastWith(item, key, i) ==> LastWith(item[..last], key, i);
      }
    }
  }

  /** A label counts only when it is not blank after trimming. */
  predicate IsBlank(s: string) {
    Trim(s) == ""
  }

  /** The header given to the `i`-th (zero-based) column when neither label nor id is usable. */
  function SynthesizedHeader(i: nat): string {
    "Column_" + Decimal.NatToString(i + 1)
  }

  function ColumnHeader(col: Column, i: nat): string {
    if !IsBlank(col.labelText) then col.labelText
    else if col.id != "" then col.id
    else SynthesizedHeader(i)
  }

  /** The header list of a table (InventoryTable.tsx, lines 94-96). */
  function Headers(cols: seq<Column>): (hs: seq<string>)
    ensures |hs| == |cols|
    ensures forall i :: 0 <= i < |cols| ==> hs[i] != ""
    ensures forall i :: 0 <= i < |cols| && !IsBlank(cols[i].labelText) ==> hs[i] == cols[i].labelText
    ensures forall i :: 0 <= i < |cols| && IsBlank(cols[i].labelText) && cols[i].id != "" ==> hs[i] == cols[i].id
    ensures forall i :: 0 <= i < |cols| && IsBlank(cols[i].labelText) && cols[i].id == "" ==> hs[i] == SynthesizedHeader(i)
  {
    seq(|cols|, i requires 0 <= i < |cols| => ColumnHeader(cols[i], i))
  }

  /** Synthesized headers of different columns never coincide. */
  lemma SynthesizedHeadersDistinct(i: nat, j: nat)
    requires i != j
    ensures SynthesizedHeader(i) != SynthesizedHeader(j)
  {
    if SynthesizedHeader(i) == SynthesizedHeader(j) {
      assert SynthesizedHeader(i)[7..] == Decimal.NatToString(i + 1);
      assert SynthesizedHeader(j)[7..] == Decimal.NatToString(j + 1);
      Decimal.NatToStringInjective(i + 1, j + 1);
    }
  }

  /** The string stored for column `i`: `row.c[i]?.v`, with `null` and
      `undefined` (including a slot past the end of the row) read as "". */
  function CellText(cells: seq<Cell>, i: nat): string {
    if i < |cells| && cells[i].Cell? && cells[i].v.Scalar? then cells[i].v.text else ""
  }

  /** One row as an item keyed by the headers (InventoryTable.tsx, lines 99-107). */
  function NormaliseRow(headers: seq<string>, cells: seq<Cell>): (item: Item)
    ensures Keys(item) == headers
    ensures forall i :: 0 <= i < |headers| ==> item[i].value == CellText(cells, i)
    ensures forall i :: |cells| <= i < |headers| ==> item[i].value == ""
    ensures forall i :: 0 <= i < |cells| && i < |headers| && (cells[i].NullCell? || cells[i].v.Missing?) ==> item[i].value == ""
  {
    seq(|headers|, i requires 0 <= i < |headers| => Entry(headers[i], CellText(cells, i)))
  }

  /** Every row of a table, in order. */
  function NormaliseRows(headers: seq<string>, rows: seq<seq<Cell>>): (items: seq<Item>)
    ensures |items| == |rows|
    ensures forall k :: 0 <= k < |rows| ==> items[k] == NormaliseRow(headers, rows[k])
    ensures forall k :: 0 <= k < |items| ==> Keys(items[k]) == headers
  {
    seq(|rows|, k requires 0 <= k < |rows| => NormaliseRow(headers, rows[k]))
  }

  /** All items of a sheet carry exactly the given headers, in order. */
  predicate Uniform(items: seq<Item>, headers: seq<string>) {
    forall k :: 0 <= k < |items| ==> Keys(items[k]) == headers
  }

  predicate Distinct(hs: seq<string>) {
    forall a, b :: 0 <= a < b < |hs| ==> hs[a] != hs[b]
  }

  /** With distinct headers, reading a normalised item at header `i` gives back cell `i`. */
  lemma LookupNormalised(headers: seq<string>, cells: seq<Cell>, i: nat)
    requires Distinct(headers) && i < |headers|
    ensures Lookup(NormaliseRow(headers, cells), headers[i]) == CellText(cells, i)
  {
    var item := NormaliseRow(headers, cells);
    assert LastWith(item, headers[i], i);
    LookupSpec(item, headers[i]);
  }

  /** The headers the component displays: the keys of the first item (line 189). */
  function DisplayHeaders(items: seq<Item>): (hs: seq<string>)
    ensures |items| == 0 ==> hs == []
  {
    if |items| > 0 then Keys(items[0]) else []
  }

  /** A loaded tab shows its column headers, taking the keys in column order
      with repeats (not `Object.keys`' order and de-duplication). */
  lemma DisplayHeadersOfUniform(items: seq<Item>, headers: seq<string>)
    requires Uniform(items, headers) && |items| > 0
    ensures DisplayHeaders(items) == headers
  {
  }
}

=== FILE: sorting.dfy ===
/** The sort step of `filteredAndSortedInventory` (InventoryTable.tsx,
    lines 154-178) on its string-comparison path: a stable sort of a copy of
    the items on one key, ascending or descending. The items are generic
    here; `keyOf` reads the sort key of an item (`a[sortConfig.key]`). */
module Sorting {
  import opened StringOrder

  datatype Direction = Ascending | Descending

  /** The comparator of lines 171-177 applied to two key values. */
  function Compare(va: string, vb: string, dir: Direction): (c: int)
    ensures c == 0 <==> va == vb
    ensures Less(va, vb) ==> c == (if dir == Ascending then -1 else 1)
    ensures Less(vb, va) ==> c == (if dir == Ascending then 1 else -1)
  {
    CompareFacts(va, vb);
    if Less(va, vb) then (if dir == Ascending then -1 else 1)
    else if Less(vb, va) then (if dir == Ascending then 1 else -1)
    else 0
  }

  lemma CompareFacts(va: string, vb: string)
    ensures va == vb || Less(va, vb) || Less(vb, va)
    ensures !Less(va, va)
    ensures Less(va, vb) ==> !Less(vb, va)
  {
    LessTotal(va, vb);
    LessIrreflexive(va);
    if Less(va, vb) {
      LessAsymmetric(va, vb);
    }
  }

  /** Descending order is the ascending comparator with its sign flipped, and
      swapping the arguments flips the sign too. */
  lemma CompareSymmetry(va: string, vb: string)
    ensures Compare(va, vb, Descending) == -Compare(va, vb, Ascending)
    ensures Compare(vb, va, Ascending) == -Compare(va, vb, Ascending)
  {
    LessTotal(va, vb);
  }

  /** `a` sorts strictly before `b`: the comparator is negative. */
  predicate Before<T>(a: T, b: T, keyOf: T -> string, dir: Direction) {
    Compare(keyOf(a), keyOf(b), dir) < 0
  }

  lemma BeforeAsymmetric<T>(a: T, b: T, keyOf: T -> string, dir: Direction)
    requires Before(a, b, keyOf, dir)
    ensures !Before(b, a, keyOf, dir)
  {
    CompareSymmetry(keyOf(a), keyOf(b));
    CompareSymmetry(keyOf(b), keyOf(a));
  }

  lemma NotBeforeTransitive<T>(a: T, b: T, c: T, keyOf: T -> string, dir: Direction)
    requires !Before(b, a, keyOf, dir) && !Before(c, b, keyOf, dir)
    ensures !Before(c, a, keyOf, dir)
  {
    var va, vb, vc := keyOf(a), keyOf(b), keyOf(c);
    LessTotal(va, vb);
    LessTotal(vb, vc);
    LessTotal(va, vc);
    if dir == Ascending {
      NotLessTransitive(va, vb, vc);
    } else {
      NotLessTransitive(vc, vb, va);
    }
  }

  /** No item is followed by one that sorts strictly before it. */
  predicate Sorted<T>(s: seq<T>, keyOf: T -> string, dir: Direction) {
    forall i, j :: 0 <= i < j < |s| ==> !Before(s[j], s[i], keyOf, dir)
  }

  /** The items whose sort key is `v`, in their order in `s`. */
  function WithValue<T>(s: seq<T>, keyOf: T -> string, v: string): seq<T>
    decreases |s|
  {
    if |s| == 0 then []
    else (if keyOf(s[0]) == v then [s[0]] else []) + WithValue(s[1..], keyOf, v)
  }

  /** Places `x` in front of the first element that does not sort strictly before it. */
  function Insert<T>(x: T, s: seq<T>, keyOf: T -> string, dir: Direction): seq<T>
    decreases |s|
  {
    if |s| == 0 then [x]
    else if Before(s[0], x, keyOf, dir) then [s[0]] + Insert(x, s[1..], keyOf, dir)
    else [x] + s
  }

  lemma {:induction false} InsertPermutes<T>(x: T, s: seq<T>, keyOf: T -> string, dir: Direction)
    ensures multiset(Insert(x, s, keyOf, dir)) == multiset(s) + multiset{x}
    decreases |s|
  {
    if |s| > 0 && Before(s[0], x, keyOf, dir) {
      InsertPermutes(x, s[1..], keyOf, dir);
      assert s == [s[0]] + s[1..];
    }
  }

  lemma SortedCons<T>(a: T, t: seq<T>, keyOf: T -> string, dir: Direction)
    requires Sorted(t, keyOf, dir)
    requires forall y :: y in t ==> !Before(y, a, keyOf, dir)
    ensures Sorted([a] + t, keyOf, dir)
  {
    var s := [a] + t;
    forall i, j | 0 <= i < j < |s|
      ensures !Before(s[j], s[i], keyOf, dir)
    {
      assert s[j] == t[j - 1];
      if i > 0 {
        assert s[i] == t[i - 1];
      }
    }
  }

  lemma {:induction false} InsertSorted<T>(x: T, s: seq<T>, keyOf: T -> string, dir: Direction)
    requires Sorted(s, keyOf, dir)
    ensures Sorted(Insert(x, s, keyOf, dir), keyOf, dir)
    decreases |s|
  {
    if |s| == 0 {
    } else if Before(s[0], x, keyOf, dir) {
      var t := Insert(x, s[1..], keyOf, dir);
      InsertSorted(x, s[1..], keyOf, dir);
      InsertPermutes(x, s[1..], keyOf, dir);
      forall y | y in t
        ensures !Before(y, s[0], keyOf, dir)
      {
        assert y in multiset(t);
        if y == x {
          BeforeAsymmetric(s[0], x, keyOf, dir);
        } else {
          assert y in s[1..];
          var k :| 0 <= k < |s[1..]| && s[1..][k] == y;
          assert s[k + 1] == y;
        }
      }
      SortedCons(s[0], t, keyOf, dir);
    } else {
      forall y | y in s
        ensures !Before(y, x, keyOf, dir)
      {
        var k :| 0 <= k < |s| && s[k] == y;
        if k > 0 {
          NotBeforeTransitive(x, s[0], y, keyOf, dir);
        }
      }
      SortedCons(x, s, keyOf, dir);
    }
  }

  lemma {:induction false} WithValueConcat<T>(a: seq<T>, b: seq<T>, keyOf: T -> string, v: string)
    ensures WithValue(a + b, keyOf, v) == WithValue(a, keyOf, v) + WithValue(b, keyOf, v)
    decreases |a|
  {
    if |a| == 0 {
      assert a + b == b;
    } else {
      var head := if keyOf(a[0]) == v then [a[0]] else [];
      WithValueConcat(a[1..], b, keyOf, v);
      assert (a + b)[0] == a[0];
      assert (a + b)[1..] == a[1..] + b;
      assert WithValue(a + b, keyOf, v) == head + WithValue(a[1..] + b, keyOf, v);
      assert WithValue(a, keyOf, v) == head + WithValue(a[1..], keyOf, v);
    }
  }

  /** Inserting `x` keeps it behind every item with the same key value. */
  lemma {:induction false} InsertStable<T>(x: T, s: seq<T>, keyOf: T -> string, dir: Direction, v: string)
    ensures WithValue(Insert(x, s, keyOf, dir), keyOf, v) == WithValue([x], keyOf, v) + WithValue(s, keyOf, v)
    decreases |s|
  {
    if |s| == 0 {
    } else if Before(s[0], x, keyOf, dir) {
      InsertStable(x, s[1..], keyOf, dir, v);
      assert keyOf(s[0]) != keyOf(x);
      WithValueConcat([s[0]], Insert(x, s[1..], keyOf, dir), keyOf, v);
      WithValueConcat([s[0]], s[1..], keyOf, v);
      assert s == [s[0]] + s[1..];
    } else {
      WithValueConcat([x], s, keyOf, v);
    }
  }

  /** `[...items].sort(comparator)`: a stable sort of a copy, as the sort of
      JavaScript arrays is required to be. The result is a permutation of the
      input, ordered by the comparator, and items with equal key values keep
      their input order. */
  function SortBy<T>(s: seq<T>, keyOf: T -> string, dir: Direction): (r: seq<T>)
    ensures multiset(r) == multiset(s)
    ensures Sorted(r, keyOf, dir)
    ensures forall v :: WithValue(r, keyOf, v) == WithValue(s, keyOf, v)
    decreases |s|
  {
    if |s| == 0 then []
    else
      var rest := SortBy(s[1..], keyOf, dir);
      InsertPermutes(s[0], rest, keyOf, dir);
      InsertSorted(s[0], rest, keyOf, dir);
      assert s == [s[0]] + s[1..];
      assert forall v :: WithValue(Insert(s[0], rest, keyOf, dir), keyOf, v) == WithValue(s, keyOf, v) by {
        forall v ensures WithValue(Insert(s[0], rest, keyOf, dir), keyOf, v) == WithValue(s, keyOf, v) {
          InsertStable(s[0], rest, keyOf, dir, v);
          WithValueConcat([s[0]], s[1..], keyOf, v);
        }
      }
      Insert(s[0], rest, keyOf, dir)
  }
}

=== FILE: string_order.dfy ===
/** The relational operators `<` and `>` on JavaScript strings: lexicographic
    comparison character by character, a proper prefix being smaller. */
module StringOrder {

  predicate Less(a: string, b: string)
    decreases |a|
  {
    |b| > 0 && (|a| == 0 || a[0] < b[0] || (a[0] == b[0] && Less(a[1..], b[1..])))
  }

  lemma {:induction false} LessIrreflexive(a: string)
    ensures !Less(a, a)
    decreases |a|
  {
    if |a| > 0 {
      LessIrreflexive(a[1..]);
    }
  }

  lemma {:induction false} LessTransitive(a: string, b: string, c: string)
    requires Less(a, b) && Less(b, c)
    ensures Less(a, c)
    decreases |a|
  {
    if |a| > 0 && a[0] == b[0] && b[0] == c[0] {
      LessTransitive(a[1..], b[1..], c[1..]);
    }
  }

  /** Any two distinct strings are ordered one way or the other. */
  lemma {:induction false} LessTotal(a: string, b: string)
    ensures a == b || Less(a, b) || Less(b, a)
    decreases |a|
  {
    if |a| > 0 && |b| > 0 && a[0] == b[0] {
      LessTotal(a[1..], b[1..]);
      if a[1..] == b[1..] {
        assert a == [a[0]] + a[1..] && b == [b[0]] + b[1..];
      }
    }
  }

  lemma LessAsymmetric(a: string, b: string)
    requires Less(a, b)
    ensures !Less(b, a)
  {
    if Less(b, a) {
      LessTransitive(a, b, a);
      LessIrreflexive(a);
    }
  }

  /** Not-greater-than is transitive, the fact a stable sort needs of its comparator. */
  lemma NotLessTransitive(a: string, b: string, c: string)
    requires !Less(b, a) && !Less(c, b)
    ensures !Less(c, a)
  {
    LessTotal(a, b);
    LessTotal(b, c);
    if a == b || b == c {
    } else {
      LessTransitive(a, b, c);
      LessAsymmetric(a, c);
    }
  }
}

=== FILE: text.dfy ===
/** The JavaScript string operations the inventory component relies on:
    `toLowerCase` (restricted to ASCII letters), `startsWith`, `endsWith`,
    `includes`, `indexOf` and `replace` with a string pattern. */
module Text {
  import opened Wrappers

  /** Lower-cases one ASCII letter; every other character is kept. */
  function LowerChar(c: char): char {
    if 'A' <= c <= 'Z' then (c as int - 'A' as int + 'a' as int) as char else c
  }

  /** `s.toLowerCase()`, restricted to ASCII case folding. */
  function Lower(s: string): (r: string)
    ensures |r| == |s|
    ensures forall i :: 0 <= i < |s| ==> r[i] == LowerChar(s[i])
    ensures forall i :: 0 <= i < |r| ==> !('A' <= r[i] <= 'Z')
    ensures forall i :: 0 <= i < |s| && !('A' <= s[i] <= 'Z') ==> r[i] == s[i]
  {
    seq(|s|, i requires 0 <= i < |s| => LowerChar(s[i]))
  }

  /** Lower-casing a lower-cased string changes nothing. */
  lemma LowerIdempotent(s: string)
    ensures Lower(Lower(s)) == Lower(s)
  {
    var once := Lower(s);
    assert forall i :: 0 <= i < |once| ==> Lower(once)[i] == once[i];
  }

  predicate StartsWith(s: string, prefix: string) {
    |prefix| <= |s| && s[..|prefix|] == prefix
  }

  predicate EndsWith(s: string, suffix: string) {
    |suffix| <= |s| && s[|s| - |suffix|..] == suffix
  }

  /** `t` occurs in `s` starting at index `i`. */
  predicate OccursAt(s: string, t: string, i: int) {
    0 <= i && i + |t| <= |s| && s[i..i + |t|] == t
  }

  /** The first occurrence of `t` in `s` at or after `from`, as `s.indexOf(t, from)`. */
  function IndexFrom(s: string, t: string, from: nat): (r: Option<nat>)
    ensures r.Some? ==> from <= r.value && OccursAt(s, t, r.value)
    ensures r.Some? ==> forall j :: from <= j < r.value ==> !OccursAt(s, t, j)
    ensures r.None? ==> forall j :: from <= j ==> !OccursAt(s, t, j)
    decreases |s| - from
  {
    if from + |t| > |s| then None
    else if s[from..from + |t|] == t then Some(from)
    else IndexFrom(s, t, from + 1)
  }

  /** `s.indexOf(t)`: the first position where `t` occurs, if any. */
  function IndexOf(s: string, t: string): (r: Option<nat>)
    ensures r.Some? ==> OccursAt(s, t, r.value) && forall j :: 0 <= j < r.value ==> !OccursAt(s, t, j)
    ensures r.None? <==> forall j :: !OccursAt(s, t, j)
  {
    IndexFrom(s, t, 0)
  }

  /** `s.includes(t)`. */
  predicate Contains(s: string, t: string) {
    IndexOf(s, t).Some?
  }

  lemma ContainsIff(s: string, t: string)
    ensures Contains(s, t) <==> exists i :: OccursAt(s, t, i)
  {
    if !Contains(s, t) {
      assert forall j :: !OccursAt(s, t, j);
    }
  }

  /** `s.replace(pattern, replacement)` with a string pattern: only the first
      occurrence is replaced (the replacement contains no `$` patterns). */
  function ReplaceFirst(s: string, pattern: string, replacement: string): (r: string)
    ensures !Contains(s, pattern) ==> r == s
    ensures StartsWith(s, pattern) ==> r == replacement + s[|pattern|..]
  {
    match IndexOf(s, pattern)
    case None => s
    case Some(i) =>
      assert StartsWith(s, pattern) ==> OccursAt(s, pattern, 0);
      s[..i] + replacement + s[i + |pattern|..]
  }

  /** `includes` is transitive: a string containing `b` contains everything `b` contains. */
  lemma ContainsTransitive(a: string, b: string, c: string)
    requires Contains(a, b) && Contains(b, c)
    ensures Contains(a, c)
  {
    var i := IndexOf(a, b).value;
    var j := IndexOf(b, c).value;
    assert OccursAt(a, b, i) && OccursAt(b, c, j);
    assert a[i..i + |b|][j..j + |c|] == a[i + j..i + j + |c|];
    assert OccursAt(a, c, i + j);
    ContainsIff(a, c);
  }
}

=== FILE: tokens.dfy ===
/** `String.prototype.trim` and `String.prototype.split` with a one-character
    separator, as used to turn a comma-separated tab list into tab names. */
module Tokens {

  /** The ECMAScript WhiteSpace and LineTerminator code points, which `trim` removes. */
  predicate IsSpace(c: char) {
    var n := c as int;
    || 0x09 <= n <= 0x0D
    || n == 0x20 || n == 0xA0 || n == 0x1680
    || 0x2000 <= n <= 0x200A
    || n == 0x2028 || n == 0x2029 || n == 0x202F || n == 0x205F
    || n == 0x3000 || n == 0xFEFF
  }

  predicate AllSpace(s: string) {
    forall i :: 0 <= i < |s| ==> IsSpace(s[i])
  }

  /** `r` is `s` with the whitespace-only prefix `s[..i]` and a whitespace-only suffix removed. */
  predicate Framed(s: string, r: string, i: int) {
    0 <= i <= |s| - |r| && s[i..i + |r|] == r && AllSpace(s[..i]) && AllSpace(s[i + |r|..])
  }

  /** The end of the run of whitespace that starts at `from`. */
  function SkipSpace(s: string, from: nat): (n: nat)
    requires from <= |s|
    ensures from <= n <= |s|
    ensures forall k :: from <= k < n ==> IsSpace(s[k])
    ensures n == |s| || !IsSpace(s[n])
    decreases |s| - from
  {
    if from < |s| && IsSpace(s[from]) then SkipSpace(s, from + 1) else from
  }

  /** The start of the run of whitespace that ends at `upto`, not going below `low`. */
  function SkipSpaceBack(s: string, low: nat, upto: nat): (m: nat)
    requires low <= upto <= |s|
    ensures low <= m <= upto
    ensures forall k :: m <= k < upto ==> IsSpace(s[k])
    ensures m == low || !IsSpace(s[m - 1])
    decreases upto
  {
    if low < upto && IsSpace(s[upto - 1]) then SkipSpaceBack(s, low, upto - 1) else upto
  }

  /** `s.trim()`: the result is the middle of `s`, framed by whitespace on both
      sides and itself neither starting nor ending with whitespace. */
  function Trim(s: string): (r: string)
    ensures exists i :: Framed(s, r, i)
    ensures |r| == 0 || (!IsSpace(r[0]) && !IsSpace(r[|r| - 1]))
    ensures r == "" <==> AllSpace(s)
  {
    var i := SkipSpace(s, 0);
    var j := SkipSpaceBack(s, i, |s|);
    assert i < |s| ==> i < j;
    assert Framed(s, s[i..j], i);
    assert i == |s| ==> AllSpace(s);
    s[i..j]
  }

  /** Trimming a string that has no surrounding whitespace changes nothing. */
  lemma TrimUnchanged(s: string)
    requires |s| == 0 || (!IsSpace(s[0]) && !IsSpace(s[|s| - 1]))
    ensures Trim(s) == s
  {
    var r := Trim(s);
    var i :| Framed(s, r, i);
    if |s| > 0 {
      assert i == 0;
      assert |r| == |s|;
    }
  }

  /** `s.split(sep)`: the pieces between separators, always at least one. */
  function Split(s: string, sep: char): (r: seq<string>)
    ensures |r| == multiset(s)[sep] + 1
    ensures forall i :: 0 <= i < |r| ==> sep !in r[i]
    decreases |s|
  {
    if |s| == 0 then [""]
    else
      var rest := Split(s[1..], sep);
      assert s == [s[0]] + s[1..];
      assert multiset(s) == multiset{s[0]} + multiset(s[1..]);
      if s[0] == sep then [""] + rest
      else [[s[0]] + rest[0]] + rest[1..]
  }

  /** `parts.join(sep)`. */
  function Join(parts: seq<string>, sep: char): string
    decreases |parts|
  {
    if |parts| == 0 then ""
    else if |parts| == 1 then parts[0]
    else parts[0] + [sep] + Join(parts[1..], sep)
  }

  lemma JoinConsFirst(c: char, parts: seq<string>, sep: char)
    requires |parts| > 0
    ensures Join([[c] + parts[0]] + parts[1..], sep) == [c] + Join(parts, sep)
  {
    var q := [[c] + parts[0]] + parts[1..];
    if |parts| > 1 {
      assert q[1..] == parts[1..];
    }
  }

  /** Joining the pieces of a split restores the original string. */
  lemma {:induction false} JoinSplit(s: string, sep: char)
    ensures Join(Split(s, sep), sep) == s
    decreases |s|
  {
    if |s| > 0 {
      var rest := Split(s[1..], sep);
      JoinSplit(s[1..], sep);
      if s[0] == sep {
        assert ([""] + rest)[1..] == rest;
        assert s == [sep] + s[1..];
      } else {
        JoinConsFirst(s[0], rest, sep);
        assert s == [s[0]] + s[1..];
      }
    }
  }

  /** Splitting a piece free of the separator gives that piece alone. */
  lemma {:induction false} SplitPiece(p: string, sep: char)
    requires sep !in p
    ensures Split(p, sep) == [p]
    decreases |p|
  {
    if |p| > 0 {
      assert p == [p[0]] + p[1..];
      SplitPiece(p[1..], sep);
      assert p == [p[0]] + p[1..];
    }
  }

  lemma {:induction false} SplitAfterPiece(p: string, sep: char, t: string)
    requires sep !in p
    ensures Split(p + [sep] + t, sep) == [p] + Split(t, sep)
    decreases |p|
  {
    var s := p + [sep] + t;
    if |p| == 0 {
      assert s[1..] == t;
    } else {
      assert s[1..] == p[1..] + [sep] + t;
      assert p == [p[0]] + p[1..];
      SplitAfterPiece(p[1..], sep, t);
      assert [s[0]] + p[1..] == p;
    }
  }

  /** Splitting a join of separator-free pieces gives the pieces back. */
  lemma {:induction false} SplitJoin(parts: seq<string>, sep: char)
    requires |parts| > 0
    requires forall i :: 0 <= i < |parts| ==> sep !in parts[i]
    ensures Split(Join(parts, sep), sep) == parts
    decreases |parts|
  {
    if |parts| == 1 {
      SplitPiece(parts[0], sep);
    } else {
      SplitJoin(parts[1..], sep);
      SplitAfterPiece(parts[0], sep, Join(parts[1..], sep));
      assert parts == [parts[0]] + parts[1..];
    }
  }
}

=== FILE: view.dfy ===
/** What the component shows for the active tab: the sort directive and its
    state machine, the tab switch, and `filteredAndSortedInventory`
    (InventoryTable.tsx, lines 129-182 and 238-242). */
module View {
  import opened Wrappers
  import opened Text
  import opened Seqs
  import opened Sheets
  import opened Sorting

  /** `sortConfig`: the column sorted on, if any, and the direction. */
  datatype SortConfig = SortConfig(key: Option<string>, direction: Direction)

  const Unsorted := SortConfig(None, Ascending)

  /** `requestSort(key)`, run when a column header is clicked (lines 133-139). */
  function RequestSort(c: SortConfig, key: string): (r: SortConfig)
    ensures r.key == Some(key)
    ensures c.key == Some(key) && c.direction == Ascending ==> r.direction == Descending
    ensures c.key == Some(key) && c.direction == Descending ==> r.direction == Ascending
    ensures c.key != Some(key) ==> r.direction == Ascending
  {
    var direction := if c.key == Some(key) && c.direction == Ascending then Descending else Ascending;
    SortConfig(Some(key), direction)
  }

  /** Clicking the same header again flips the direction; clicking it twice
      more returns to the same directive. */
  lemma RequestSortToggles(c: SortConfig, key: string)
    ensures RequestSort(RequestSort(c, key), key).direction != RequestSort(c, key).direction
    ensures RequestSort(RequestSort(RequestSort(c, key), key), key) == RequestSort(c, key)
  {
  }

  /** The per-tab interface state the component keeps. */
  datatype ViewState = ViewState(activeTab: nat, searchTerm: string, sort: SortConfig)

  /** The click handler of a tab button (lines 238-242). It replaces the whole
      view state, so the state before the click plays no part. */
  function SwitchTab(index: nat): (r: ViewState)
    ensures r.activeTab == index && r.searchTerm == "" && r.sort == Unsorted
  {
    ViewState(index, "", Unsorted)
  }

  /** `sheets[activeTabIndex] || { name: '', items: [] }` (line 130). */
  function ActiveSheet(sheets: seq<Sheet>, index: nat): (s: Sheet)
    ensures index < |sheets| ==> s == sheets[index]
    ensures index >= |sheets| ==> s == Sheet("", [])
  {
    if index < |sheets| then sheets[index] else Sheet("", [])
  }

  /** Some value of the item contains the term, ignoring case
      (`Object.values(item).some(...)`, lines 147-149). */
  predicate Matches(item: Item, term: string) {
    exists k :: k in Keys(item) && Contains(Lower(Lookup(item, k)), Lower(term))
  }

  /** The filter condition for one search term. */
  function MatchesTerm(term: string): Item -> bool {
    item => Matches(item, term)
  }

  /** The filter step (lines 144-151): an empty term keeps every item. */
  function FilterItems(items: seq<Item>, term: string): (r: seq<Item>)
    ensures term == "" ==> r == items
    ensures IsSubsequence(r, items)
    ensures term != "" ==> forall x :: multiset(r)[x] == if Matches(x, term) then multiset(items)[x] else 0
    ensures forall x :: x in r ==> term == "" || Matches(x, term)
  {
    if term == "" then
      SubsequenceReflexive(items);
      items
    else
      var r := Filter(items, MatchesTerm(term));
      assert forall x :: x in r ==> multiset(r)[x] > 0;
      r
  }

  /** Filtering twice with the same term is filtering once. */
  lemma FilterIdempotent(items: seq<Item>, term: string)
    ensures FilterItems(FilterItems(items, term), term) == FilterItems(items, term)
  {
    if term != "" {
      var once := FilterItems(items, term);
      assert forall i :: 0 <= i < |once| ==> MatchesTerm(term)(once[i]) by {
        forall i | 0 <= i < |once| ensures MatchesTerm(term)(once[i]) {
          assert once[i] in once;
        }
      }
      FilterKeepsAll(once, MatchesTerm(term));
    }
  }

  /** A longer search term never matches more: if the new term contains the
      old one (ignoring case), its result is a subsequence of the old result.
      This includes the first keystroke, from an empty term. */
  lemma FilterNarrows(items: seq<Item>, older: string, newer: string)
    requires Contains(Lower(newer), Lower(older))
    ensures IsSubsequence(FilterItems(items, newer), FilterItems(items, older))
  {
    if older != "" {
      assert newer != "";
      forall x | Matches(x, newer)
        ensures Matches(x, older)
      {
        var k :| k in Keys(x) && Contains(Lower(Lookup(x, k)), Lower(newer));
        ContainsTransitive(Lower(Lookup(x, k)), Lower(newer), Lower(older));
      }
      FilterMonotone(items, MatchesTerm(newer), MatchesTerm(older));
    }
  }

  /** Sorting is on when the directive names a non-empty key (`if (sortConfig.key)`). */
  predicate SortActive(c: SortConfig) {
    c.key.Some? && c.key.value != ""
  }

  /** Reads the sort column of an item, `item[key]`. */
  function SortKey(key: string): Item -> string {
    it => Lookup(it, key)
  }

  /** `filteredAndSortedInventory` (lines 142-182): the filtered items, sorted
      on a copy when a sort key is set. The input sequence is a value and is
      never changed. */
  function Displayed(items: seq<Item>, term: string, c: SortConfig): (r: seq<Item>)
    ensures !SortActive(c) ==> r == FilterItems(items, term)
    ensures multiset(r) == multiset(FilterItems(items, term))
    ensures SortActive(c) ==> Sorted(r, SortKey(c.key.value), c.direction)
    ensures SortActive(c) ==> forall v :: WithValue(r, SortKey(c.key.value), v) == WithValue(FilterItems(items, term), SortKey(c.key.value), v)
  {
    var filtered := FilterItems(items, term);
    if SortActive(c) then SortBy(filtered, SortKey(c.key.value), c.direction) else filtered
  }

  /** After a tab switch the new tab's items are shown whole and in sheet order. */
  lemma SwitchTabShowsSheet(sheets: seq<Sheet>, index: nat)
    ensures var w := SwitchTab(index);
      Displayed(ActiveSheet(sheets, w.activeTab).items, w.searchTerm, w.sort) == ActiveSheet(sheets, index).items
  {
  }
}

=== FILE: wrappers.dfy ===
/** Optional values and success/failure results, used wherever the inventory
    component tests for `null`/`undefined` or reports an error. */
module Wrappers {

  datatype Option<+T> = None | Some(value: T)

  datatype Result<+T, +E> = Ok(value: T) | Err(error: E)
}
